=== FILE: README.md ===
# MyST Jenkins plugin: build-step core in Dafny

This project models the decision logic of the MyST Jenkins build step. The step runs
the MyST agent as a child process of a Jenkins build. It models these operations:

- choosing the job's MyST installation from the globally configured array (`getMystInstallation`);
- normalising an installation record in its constructor and specialising it for a node and for an environment (`forNode`, `forEnvironment`);
- finding the agent executable on the build's node, including the attempt to make it executable (the callable inside `getExecutable`, and `determineMystExecutor`);
- assembling the command string, choosing the working directory, building the build parameters and turning the process outcome into the step's boolean (`perform`);
- the dashboard link URL (`getProjectAction`) and the name-field check (`doCheckName`);
- wholesale replacement of the configured array (`setInstallations` / `getInstallations`).

Anything the code cannot decide by itself is an input to the model:

- The node is a value: its platform flag, a function from path to file status, and `Util.replaceMacro` with that JVM's environment.
- The Jenkins library calls are function-valued parameters: `EnvVars.overrideAll`, `EnvVars.expand` and `ToolInstallation.translateFor`.
- The launch of the process is an abstract outcome: an exit code, or an exception.

Java `null` is `Option.None`. Exceptions are `Result.Failure`. String concatenation of a null reference renders `"null"`.

Modules, one per concern of the source:

| file | module | models |
|---|---|---|
| wrappers.dfy | `Wrappers` | null references and exceptions (`Option`, `Result`) |
| java_strings.dfy | `JavaStrings` | `String.trim`, blank tests, `Util.fixEmptyAndTrim`, `equalsIgnoreCase`, `String.replace` |
| installations.dfy | `Installations` | `MystInstallation` record, constructor, `forEnvironment`, `forNode`, descriptor array |
| executable.dfy | `ExecutableResolution` | the callable body of `getExecutable`, `determineMystExecutor` |
| lookup.dfy | `InstallationLookup` | `getMystInstallation` and its abort messages |
| build_step.dfy | `BuildStep` | `perform`: command, working directory, parameters, result, full flow |
| builder_descriptor.dfy | `BuilderDescriptor` | `getProjectAction` URL, `doCheckName` |

Four behaviours of the code are easy to miss. The model follows the code in each:

- **Child environment.** The process does not get the environment with the build variables applied (lines 115-116). It gets the build environment read again by `build.getEnvironment(listener)` at line 156 or 160, after the `ParametersAction` carrying `MYST_HOME` and, for `start`, `BUILD_ID` has been attached at line 153. Jenkins folds environment-contributing actions into that read, so the model takes it as a function of the attached parameters (`Build.environmentAfter`).
- **Interruption.** The `catch (Exception e)` at line 167 also catches `InterruptedException` raised while waiting for the process, so the step returns `false` and the interruption does not propagate.
- **Blank installation names.** The constructor can leave a record without a name: a blank name becomes null. A named lookup that reaches such a record before a match ends with a NullPointerException (line 90). This is `Abort.UnnamedInstallation`.
- **Null action.** A null action is rendered as `"null"` in the command string. The `equals` call at line 150 then throws inside the `try`, so the step returns `false` without adding the parameters and without launching. This is `StepReport.ActionMissing`.

## Model

| member | source | states |
|---|---|---|
| JavaStrings.Trim | src/main/java/org/jenkinsci/plugins/myst/MystBuilder.java:90 | `trim()` keeps exactly the infix between the leading and trailing characters up to U+0020; the result is empty iff the input is blank, and an already trimmed string is unchanged |
| JavaStrings.TrimIdempotent | src/main/java/org/jenkinsci/plugins/myst/MystBuilder.java:90 | trimming a trimmed name again changes nothing, which is why the lookup's second trim of a constructed name is harmless |
| JavaStrings.FixEmptyAndTrim | src/main/java/org/jenkinsci/plugins/myst/MystInstallation.java:37 | null and blank values both become null; any other value becomes its non-empty trimmed form; a value already in that form is kept |
| JavaStrings.EqualsIgnoreCase | src/main/java/org/jenkinsci/plugins/myst/MystBuilder.java:90 | with the ASCII fold, `equalsIgnoreCase` holds exactly when the strings have the same length and agree character by character once upper-cased |
| JavaStrings.EqualsIgnoreCaseIsUpperCaseEquality | src/main/java/org/jenkinsci/plugins/myst/MystBuilder.java:90 | with the ASCII fold, the three-way per-character `equalsIgnoreCase` test holds exactly when the upper-cased strings are equal |
| JavaStrings.EqualsIgnoreCaseIsEquivalence | src/main/java/org/jenkinsci/plugins/myst/MystBuilder.java:90 | the name comparison is reflexive, symmetric and transitive |
| JavaStrings.Show | src/main/java/org/jenkinsci/plugins/myst/MystBuilder.java:138 | concatenation renders a non-null string as itself and null as `null`, so a null reference and the string `"null"` render alike |
| JavaStrings.ReplaceChar | src/main/java/org/jenkinsci/plugins/myst/MystBuilder.java:106 | `replace(".", "/")` keeps the length, turns every `.` into `/` and leaves every other character in place |
| JavaStrings.ReplaceCharRoundTrip | src/main/java/org/jenkinsci/plugins/myst/MystBuilder.java:106 | when the config name has no `/`, replacing `/` back by `.` recovers it |
| Installations.NewInstallation | src/main/java/org/jenkinsci/plugins/myst/MystInstallation.java:36-38 | the constructor yields a normal record: name and home are null iff given null or blank, otherwise their trimmed forms; properties are kept |
| Installations.NewInstallationFixesNormal | src/main/java/org/jenkinsci/plugins/myst/MystInstallation.java:36-38 | constructing again from a constructed record's own fields gives the same record |
| Installations.ForEnvironment | src/main/java/org/jenkinsci/plugins/myst/MystInstallation.java:77-79 | a new normal record: name and properties of the original, home the normalised expansion of the original home |
| Installations.ForNode | src/main/java/org/jenkinsci/plugins/myst/MystInstallation.java:81-83 | a new normal record: name and properties of the original, home the normalised node translation |
| Installations.SpecialisationKeepsIdentity | src/main/java/org/jenkinsci/plugins/myst/MystInstallation.java:77-83 | node-then-environment specialisation of a constructed record keeps its name and properties whatever the translation and expansion do |
| Installations.ForEnvironmentNoOp | src/main/java/org/jenkinsci/plugins/myst/MystInstallation.java:77-79 | for a constructed record, an expansion that leaves the home unchanged gives back a record equal to the original |
| Installations.GetInstallations | src/main/java/org/jenkinsci/plugins/myst/MystInstallation.java:108-111 | the descriptor holds nothing but the array `getInstallations` returns |
| Installations.SetInstallations | src/main/java/org/jenkinsci/plugins/myst/MystInstallation.java:118-121 | after `setInstallations(xs)`, `getInstallations()` returns exactly `xs` |
| Installations.ReplaceThenRead | src/main/java/org/jenkinsci/plugins/myst/MystInstallation.java:108-121 | after `setInstallations(xs)`, `getInstallations()` is exactly `xs`; the previous array has no influence; writing back the array just read changes nothing |
| ExecutableResolution.ExecutableName | src/main/java/org/jenkinsci/plugins/myst/MystInstallation.java:71-73 | the file name is `myst.cmd` exactly on Windows and `myst` exactly elsewhere |
| ExecutableResolution.ChildPath | src/main/java/org/jenkinsci/plugins/myst/MystInstallation.java:54 | the candidate path ends with the file name, starts with the expanded home when there is one, has a separator right before the name, and holds nothing else: exactly one separator is added unless the home already ends with one |
| ExecutableResolution.MarkExecutable | src/main/java/org/jenkinsci/plugins/myst/MystInstallation.java:58 | a successful `setExecutable(true)` is taken to make that one file executable (see "Left out"), and it touches no other |
| ExecutableResolution.Candidate | src/main/java/org/jenkinsci/plugins/myst/MystInstallation.java:52-54 | the inspected file ends with the platform's agent file name; it is that name alone when `replaceMacro` gives null, and otherwise it is the expanded home, the platform's separator unless the home already ends with one, and the name, with nothing else |
| ExecutableResolution.Inspect | src/main/java/org/jenkinsci/plugins/myst/MystInstallation.java:55-66 | on a given path: the existence test first; a missing file gives null; Windows returns an existing path untouched; elsewhere `setExecutable` is tried once only when the permission is missing, a refused change aborts, and without a `setExecutable` call no file changes |
| ExecutableResolution.GetExecutable | src/main/java/org/jenkinsci/plugins/myst/MystInstallation.java:51-67 | the existence test comes first; a missing file gives null with no other call; Windows returns an existing path untouched; elsewhere the permission is read, `setExecutable` is tried once only when it is missing, and a refused change aborts; only the candidate file can change, and without a `setExecutable` call no file changes at all |
| ExecutableResolution.GetExecutableIdempotent | src/main/java/org/jenkinsci/plugins/myst/MystInstallation.java:55-64 | a second lookup on the file system a successful one left behind finds the same path and makes no `setExecutable` call, given that a successful `setExecutable(true)` makes the file executable |
| ExecutableResolution.FoundPathNamesAgent | src/main/java/org/jenkinsci/plugins/myst/MystInstallation.java:53-64 | a found path ends with the platform's agent file name |
| InstallationLookup.AbortMessage | src/main/java/org/jenkinsci/plugins/myst/MystBuilder.java:81-94 | every abort but the null-pointer failure has a message; the permission message ends with the refused path, as thrown at MystInstallation.java:60 |
| InstallationLookup.NotDefinedMessageQuotesRequest | src/main/java/org/jenkinsci/plugins/myst/MystBuilder.java:94 | the not-defined abort message contains the requested name exactly as configured, untrimmed |
| InstallationLookup.Scan | src/main/java/org/jenkinsci/plugins/myst/MystBuilder.java:89-93 | the loop stops at the first record that matches or has no name, and runs off the end only when every record is named and none matches |
| InstallationLookup.GetMystInstallation | src/main/java/org/jenkinsci/plugins/myst/MystBuilder.java:79-98 | the no-installation abort happens exactly for an empty array, whatever the request; a null or blank request gives element 0; a success for a named request is the first match in array order; not-defined carries the request and means no record matches; the null-pointer failure names the first unnamed record reached before any match |
| InstallationLookup.LookupFindsFirstMatch | src/main/java/org/jenkinsci/plugins/myst/MystBuilder.java:88-93 | whenever index i holds the first matching record, the lookup returns exactly that record |
| InstallationLookup.LookupCrashesOnUnnamed | src/main/java/org/jenkinsci/plugins/myst/MystBuilder.java:89-90 | a record without a name reached before any match ends the lookup with the null-pointer failure at its index |
| InstallationLookup.LookupAbortsWhenNoneMatches | src/main/java/org/jenkinsci/plugins/myst/MystBuilder.java:88-94 | when every record is named and none matches, the lookup aborts naming the request as given |
| InstallationLookup.SameMatches | src/main/java/org/jenkinsci/plugins/myst/MystBuilder.java:90 | two requests equal after trimming and ignoring case match exactly the same record names |
| InstallationLookup.ScanIgnoresCaseAndPadding | src/main/java/org/jenkinsci/plugins/myst/MystBuilder.java:89-93 | the loop stops at the same place for two such requests |
| InstallationLookup.LookupIgnoresCaseAndPadding | src/main/java/org/jenkinsci/plugins/myst/MystBuilder.java:84-94 | two such requests select the same record, or both fail; both fail with not-defined or neither does, and any other failure (the no-installation abort, or the null-pointer failure at the same index) is identical for both |
| BuildStep.AssembleCommand | src/main/java/org/jenkinsci/plugins/myst/MystBuilder.java:138-142 | the command starts with the executable and a space, then action and config; it is longer than that iff properties are non-null, and then the rest is a space and the raw properties |
| BuildStep.PropertiesRoundTrip | src/main/java/org/jenkinsci/plugins/myst/MystBuilder.java:140-142 | the properties, null included, can be read back unchanged from the assembled command |
| BuildStep.ChooseWorkDir | src/main/java/org/jenkinsci/plugins/myst/MystBuilder.java:154-161 | the build workspace iff the configured workspace is null or blank; otherwise the configured string exactly, untrimmed |
| BuildStep.StepResult | src/main/java/org/jenkinsci/plugins/myst/MystBuilder.java:162-170 | the step returns true exactly when a process was launched and joined with exit code 0 |
| BuildStep.Decide | src/main/java/org/jenkinsci/plugins/myst/MystBuilder.java:128-170 | null executable: fatal, nothing launched; null action: nothing launched; otherwise the assembled command runs in the chosen directory with the build environment read after the parameters were attached; parameters are `MYST_HOME` then `BUILD_ID=dontKillMe` iff the action is exactly `start`; the result is true iff something was launched and it exited with 0, so exceptions and non-zero codes give false |
| BuildStep.PerformWith | src/main/java/org/jenkinsci/plugins/myst/MystBuilder.java:122-170 | after node-then-environment specialisation, the step aborts exactly when, on a non-Windows node, the candidate file exists, is not executable and cannot be made so; the executable is missing exactly when the candidate file does not exist, and nothing is launched for a null action; the command is the one assembled from the candidate; a launched process runs in the chosen directory, with `MYST_HOME` set to the specialised home, the `BUILD_ID` marker exactly for `start`, and the environment re-read after those parameters were attached; the result is true exactly when the candidate exists, the action is set and the process exits with 0 |
| BuildStep.Perform | src/main/java/org/jenkinsci/plugins/myst/MystBuilder.java:112-171 | a lookup failure ends the step with that same abort before any specialisation, executable lookup or launch; otherwise the step is the post-lookup flow on the chosen installation; the result is true exactly when the lookup succeeded, the candidate file exists, the action is set and the process exits with 0; a launched process runs in the chosen directory, gets the marker exactly for `start`, and sees the environment re-read after the parameters were attached |
| BuildStep.EmptyRegistryAborts | src/main/java/org/jenkinsci/plugins/myst/MystBuilder.java:112-121 | with no installation configured the step aborts before any specialisation, executable lookup or launch, whatever the job, node, library or launch |
| BuildStep.SuccessRanTheAgent | src/main/java/org/jenkinsci/plugins/myst/MystBuilder.java:121-170 | a successful step launched a command starting with an existing file named after the platform's agent executable, and the process exited with 0 |
| BuildStep.DefaultInstallationScenario | src/main/java/org/jenkinsci/plugins/myst/MystBuilder.java:112-171 | with one installation `default` at `/opt/myst`, no requested name and an executable `/opt/myst/myst` on a Unix node, the step runs `/opt/myst/myst apply app.env` in the build workspace, the re-read environment carries `MYST_HOME`, and the step succeeds on exit code 0 |
| BuilderDescriptor.ConfigPath | src/main/java/org/jenkinsci/plugins/myst/MystBuilder.java:106 | the config path has the config's length, has `/` at every position where the config has `.`, and keeps every other character |
| BuilderDescriptor.DashboardUrl | src/main/java/org/jenkinsci/plugins/myst/MystBuilder.java:102-109 | no URL iff console integration is off; a null config fails only when it is on; otherwise the URL is the console URL, `/index.jsp?env=/conf/` and the dotted-to-slashed config |
| BuilderDescriptor.ConfigRecoverableFromUrl | src/main/java/org/jenkinsci/plugins/myst/MystBuilder.java:106 | a config name without `/` can be read back from its dashboard URL |
| BuilderDescriptor.CheckName | src/main/java/org/jenkinsci/plugins/myst/MystBuilder.java:195-204 | error iff the value is empty, warning iff it has 1 to 3 characters, ok iff it has at least 4; the empty value is never a warning |
| BuilderDescriptor.CheckNameMonotone | src/main/java/org/jenkinsci/plugins/myst/MystBuilder.java:195-204 | a longer value never gets a more severe verdict |

## Left out

- `Context.java`, the dashboard HTTP client with JSON parsing: it is a network wrapper over libraries that are not part of this model.
- `MystProjectAction.java`: a holder for the URL `DashboardUrl` computes, plus constant icon and display names.
- The shell-style tokenisation by `ArgumentListBuilder.addTokenized` (line 143) is library code. The model stops at the command string handed to it.
- The first `build.getEnvironment` read and `overrideAll` (lines 115-116) come before the lookup. An exception from them ends the step before the lookup; it is not modelled.
- `Build.environmentAfter` stands for Jenkins' `AbstractBuild.getEnvironment` after the step's `ParametersAction` is attached. It is an input with no further properties, so the model does not promise that `MYST_HOME` or `BUILD_ID` actually appear in the child's environment.
- Launching and joining the process, and logging to the build listener, are I/O. They are the `LaunchOutcome` input. An exception from `build.getEnvironment`, `addAction` or `launch` after the `start` test is folded into `Raised`.
- The remote dispatch of the executable lookup over the node's channel is not modelled. The callable body is a direct function of the node. Channel failures, and `IOException`/`InterruptedException` from `forNode`, propagate out of `perform`; they are not modelled.
- `EnvVars.overrideAll`, `EnvVars.expand`, `ToolInstallation.translateFor` and `Util.replaceMacro` are library functions. They are parameters with no further properties.
- The branch for a null installation (lines 123-124) and the final `throw` (line 97) cannot be reached: the lookup either returns an array element or throws. Array elements are taken to be non-null.
- `getHomeDir`, `getMystInstallationName`, and descriptor persistence and form binding (`load`, `save`, `configure`, `newInstance`, `getToolDescriptor`, `Hudson.getInstance()`) are framework plumbing.
- The lookup reads the configured array once. The source reads it at line 80 and again at line 86 or 89. A replacement in between, and the visibility guarantees of the `volatile` copy-on-write field, are concurrency and are not modelled.
- ExecutableResolution.ChildPath: models `new File(parent, child).getPath()` for parents that are already normalised. It does not collapse repeated separators, strip trailing separators, or accept `/` on Windows.
- ExecutableResolution.Candidate: inherits the gap of `ChildPath`. A home such as "/opt/myst//" gives "/opt/myst//myst" here, where `java.io.File` normalises it to "/opt/myst/myst".
- ExecutableResolution.MarkExecutable: assumes that a successful `setExecutable(true)` makes `canExecute()` true afterwards. Java promises less: on a file system mounted `noexec` the permission bit is set but the file still cannot be executed. So ExecutableResolution.GetExecutableIdempotent's "a second lookup makes no `setExecutable` call" rests on that assumption; in the source a second lookup there would call `setExecutable` again.
- ExecutableResolution.GetExecutableIdempotent: holds only under the `MarkExecutable` assumption above; a `noexec` mount breaks it in the source.
- ExecutableResolution.GetExecutable: the abort carries the candidate path. The source's message uses `getCanonicalPath()`, which resolves links on the node's file system.
- InstallationLookup.GetMystInstallation: case-insensitive comparison folds ASCII letters only. `Character.toUpperCase` and `toLowerCase` cover all of Unicode.
- JavaStrings.EqualsIgnoreCase: folds ASCII letters only. Java's `equalsIgnoreCase` also equates non-ASCII pairs such as "é" and "É", which the model keeps apart.
- JavaStrings.EqualsIgnoreCaseIsUpperCaseEquality: the reduction to equality of upper-cased strings holds for the ASCII fold only. Over Unicode, `"İ".equalsIgnoreCase("i")` is true in Java (both lower-case to `i` after upper-casing), yet the upper-cased strings "İ" and "I" differ.
- BuilderDescriptor.CheckName: lengths count Dafny characters (Unicode scalar values), while Java counts UTF-16 code units. A null value (a NullPointerException in the source) is not modelled.
- BuilderDescriptor.DashboardUrl: returns the URL string. It does not build the `MystProjectAction` around it.

=== FILE: build_step.dfy ===
/** MystBuilder.perform: the command line, the working directory, the build
    parameters and the boolean result of one build step, with the launch of the
    process, the library calls and the node's file system as inputs. */
module BuildStep {
  import opened Wrappers
  import opened JavaStrings
  import opened Installations
  import opened ExecutableResolution
  import opened InstallationLookup

  /** Java's `int`, the type of a process exit code. */
  newtype int32 = x: int | -0x8000_0000 <= x < 0x8000_0000

  /** The builder's configured fields; any of them may be null. */
  datatype Job = Job(
    action: Option<string>,
    config: Option<string>,
    workspace: Option<string>,
    properties: Option<string>,
    installationName: Option<string>)

  /** A string build parameter added to the build through a `ParametersAction`. */
  datatype Param = Param(name: string, value: Option<string>)

  /** The directory the process is started in. */
  datatype WorkDir = BuildWorkspace | Directory(path: string)

  /** What launching and joining the process gave: an exit code, or an exception
      (an I/O failure or an interruption). */
  datatype LaunchOutcome = Exit(code: int32) | Raised

  /** What the step did, when it returned normally. */
  datatype StepReport =
      /** The lookup gave null: fatal log, nothing launched. */
    | ExecutableMissing(installation: Option<string>)
      /** The action is null: `equals` throws inside the `try`, before the
          parameters are added and before the launch. */
    | ActionMissing(command: string)
      /** The process was handed to the launcher. */
    | Started(command: string, params: seq<Param>, workDir: WorkDir, env: Env, outcome: LaunchOutcome)

  /** The action for which the build is marked so that its processes are not killed. */
  const StartAction := "start"

  /** The build parameter naming the installation home. */
  function MystHome(home: Option<string>): Param {
    Param("MYST_HOME", home)
  }

  /** The marker that keeps a started agent alive after the build. */
  const KeepAlive := Param("BUILD_ID", Some("dontKillMe"))

  /** The part of the command line every step has. */
  function BaseCommand(exe: string, action: Option<string>, config: Option<string>): string {
    exe + " " + Show(action) + " " + Show(config)
  }

  /** The command string handed to the tokenizer: executable, action and config
      separated by single spaces, then a space and the raw properties when they
      are not null. Null action or config shows as "null". */
  function AssembleCommand(exe: string, action: Option<string>, config: Option<string>,
                           properties: Option<string>): (cmd: string)
    ensures |exe| + 1 <= |cmd| && cmd[..|exe| + 1] == exe + " "
    ensures |BaseCommand(exe, action, config)| <= |cmd|
    ensures cmd[..|BaseCommand(exe, action, config)|] == BaseCommand(exe, action, config)
    ensures properties.None? <==> |cmd| == |BaseCommand(exe, action, config)|
    ensures properties.Some? ==> cmd[|BaseCommand(exe, action, config)|..] == " " + properties.value
  {
    var base := BaseCommand(exe, action, config);
    assert base[..|exe| + 1] == exe + " ";
    if properties.Some? then
      var cmd := base + " " + properties.value;
      assert cmd[..|base|] == base;
      cmd
    else
      base
  }

  /** Reading the properties back off a command line, given its base part's length. */
  function PropertiesOf(cmd: string, baseLength: nat): Option<string>
    requires baseLength <= |cmd|
  {
    if |cmd| == baseLength then None else Some(cmd[baseLength + 1..])
  }

  /** The properties string survives assembly unchanged, null included. */
  lemma PropertiesRoundTrip(exe: string, action: Option<string>, config: Option<string>,
                            properties: Option<string>)
    ensures PropertiesOf(AssembleCommand(exe, action, config, properties),
                         |BaseCommand(exe, action, config)|) == properties
  {
  }

  /** The working directory: the build workspace unless the configured one is
      non-blank, which is then used as written, untrimmed. */
  function ChooseWorkDir(workspace: Option<string>): (w: WorkDir)
    ensures w.BuildWorkspace? <==> workspace.None? || IsBlank(workspace.value)
    ensures w.Directory? ==> workspace == Some(w.path)
  {
    if workspace.None? || |Trim(workspace.value)| == 0 then BuildWorkspace
    else Directory(workspace.value)
  }

  /** The boolean `perform` returns for a step that returned normally. */
  function StepResult(r: StepReport): (ok: bool)
    ensures ok <==> r.Started? && r.outcome == Exit(0)
  {
    match r
    case ExecutableMissing(_) => false
    case ActionMissing(_) => false
    case Started(_, _, _, _, outcome) =>
      match outcome
      case Raised => false
      case Exit(code) => if code != 0 then false else true
  }

  /** `perform` from the executable lookup on: `exe` is what the lookup returned,
      `sri` the specialised installation, and `envAfter(ps)` the build environment
      read again once a `ParametersAction` carrying `ps` has been attached. */
  function Decide(exe: Option<string>, sri: Installation, job: Job, envAfter: seq<Param> -> Env,
                  launch: LaunchOutcome): (r: StepReport)
    ensures exe.None? <==> r.ExecutableMissing?
    ensures r.ExecutableMissing? ==> r.installation == sri.name
    ensures exe.Some? && job.action.None? <==> r.ActionMissing?
    ensures r.ActionMissing? ==> r.command == AssembleCommand(exe.value, None, job.config, job.properties)
    ensures r.Started? ==>
              && exe.Some? && job.action.Some?
              && r.command == AssembleCommand(exe.value, job.action, job.config, job.properties)
              && r.workDir == ChooseWorkDir(job.workspace)
              && r.env == envAfter(r.params)
              && r.outcome == launch
    // MYST_HOME always, then the keep-alive marker exactly for the literal "start".
    ensures r.Started? ==> 1 <= |r.params| <= 2 && r.params[0] == MystHome(sri.home)
    ensures r.Started? ==> (|r.params| == 2 <==> job.action == Some(StartAction))
    ensures r.Started? && |r.params| == 2 ==> r.params[1] == KeepAlive
    // Success exactly when something was launched and it exited with 0.
    ensures StepResult(r) <==> exe.Some? && job.action.Some? && launch == Exit(0)
  {
    match exe
    case None => ExecutableMissing(sri.name)
    case Some(path) =>
      var params := [MystHome(sri.home)];
      var cmd := AssembleCommand(path, job.action, job.config, job.properties);
      match job.action
      case None => ActionMissing(cmd)
      case Some(action) =>
        var params' := if action == StartAction then params + [KeepAlive] else params;
        Started(cmd, params', ChooseWorkDir(job.workspace), envAfter(params'), launch)
  }

  /** The build as the step sees it: the environment read at the start, the build
      variables, and the environment read again after the step has attached its
      parameters. Jenkins folds environment-contributing actions such as
      `ParametersAction` into that second read, so it is a function of them. */
  datatype Build = Build(environment: Env, variables: Env, environmentAfter: seq<Param> -> Env)

  /** The Jenkins library calls the step makes, as functions: `EnvVars.overrideAll`,
      `EnvVars.expand` and `ToolInstallation.translateFor` on the executing node. */
  datatype Library = Library(
    overrideAll: (Env, Env) -> Env,
    expand: (Env, Option<string>) -> Option<string>,
    translateFor: Installation -> Option<string>)

  /** The installation after node and then environment specialisation. */
  function Specialise(inst: Installation, build: Build, lib: Library): Installation {
    ForEnvironment(ForNode(inst, lib.translateFor), lib.overrideAll(build.environment, build.variables), lib.expand)
  }

  /** `perform` once the installation is chosen: specialise it, find the
      executable on the node, then run the step. A refused permission change ends
      the step with an exception; everything after that yields a boolean. */
  function PerformWith(inst: Installation, job: Job, build: Build, node: Node, lib: Library,
                       launch: LaunchOutcome): (r: Result<StepReport, Abort>)
    ensures var sri := Specialise(inst, build, lib);
            var exe := Candidate(sri.home, node);
            && (r.Failure? <==> !node.isWindows && node.files(exe) == Present(false, false))
            && (r.Failure? ==> r.error == PermissionRefused(exe))
            && (r.Success? ==> (r.value.ExecutableMissing? <==> node.files(exe).Missing?))
            && (r.Success? ==> (r.value.ActionMissing? <==> node.files(exe).Present? && job.action.None?))
            && (r.Success? && r.value.ExecutableMissing? ==> r.value.installation == sri.name)
            && (r.Success? && !r.value.ExecutableMissing? ==>
                  r.value.command == AssembleCommand(exe, job.action, job.config, job.properties))
    // What a launched process gets: directory, parameters, environment, outcome.
    ensures var sri := Specialise(inst, build, lib);
            r.Success? && r.value.Started? ==>
              && r.value.workDir == ChooseWorkDir(job.workspace)
              && 1 <= |r.value.params| <= 2 && r.value.params[0] == MystHome(sri.home)
              && (|r.value.params| == 2 <==> job.action == Some(StartAction))
              && (|r.value.params| == 2 ==> r.value.params[1] == KeepAlive)
              && r.value.env == build.environmentAfter(r.value.params)
              && r.value.outcome == launch
    // True exactly when the agent file exists, an action is set and the process exits with 0.
    ensures r.Success? ==>
              (StepResult(r.value) <==>
                 node.files(Candidate(Specialise(inst, build, lib).home, node)).Present? &&
                 job.action.Some? && launch == Exit(0))
  {
    var sri := ForEnvironment(ForNode(inst, lib.translateFor), lib.overrideAll(build.environment, build.variables), lib.expand);
    var probe := GetExecutable(sri.home, node);
    match probe.resolution
    case PermissionDenied(path) => Failure(PermissionRefused(path))
    case NotFound => Success(Decide(None, sri, job, build.environmentAfter, launch))
    case Found(path) => Success(Decide(Some(path), sri, job, build.environmentAfter, launch))
  }

  /** `perform`: look the installation up, then carry on with it. A lookup
      failure is the exception the step ends with. */
  function Perform(regs: seq<Installation>, job: Job, build: Build, node: Node, lib: Library,
                   launch: LaunchOutcome): (r: Result<StepReport, Abort>)
    ensures GetMystInstallation(regs, job.installationName).Failure? ==>
              r == Failure(GetMystInstallation(regs, job.installationName).error)
    ensures GetMystInstallation(regs, job.installationName).Success? ==>
              r == PerformWith(GetMystInstallation(regs, job.installationName).value, job, build, node, lib, launch)
    ensures r.Success? ==> GetMystInstallation(regs, job.installationName).Success?
    ensures r.Success? ==>
              var sri := Specialise(GetMystInstallation(regs, job.installationName).value, build, lib);
              (StepResult(r.value) <==>
                 node.files(Candidate(sri.home, node)).Present? && job.action.Some? && launch == Exit(0))
    ensures r.Success? && r.value.Started? ==>
              && r.value.workDir == ChooseWorkDir(job.workspace)
              && (|r.value.params| == 2 <==> job.action == Some(StartAction))
              && r.value.env == build.environmentAfter(r.value.params)
  {
    match GetMystInstallation(regs, job.installationName)
    case Failure(e) => Failure(e)
    case Success(inst) => PerformWith(inst, job, build, node, lib, launch)
  }

  /** With no installation configured the step aborts before any specialisation,
      executable lookup or launch, whatever the job asks for. */
  lemma EmptyRegistryAborts(job: Job, build: Build, node: Node, lib: Library, launch: LaunchOutcome)
    ensures Perform([], job, build, node, lib, launch) == Failure(NoInstallations)
  {
  }

  /** A successful step ran the platform's agent file from the chosen installation,
      and the process exited with 0. */
  lemma SuccessRanTheAgent(regs: seq<Installation>, job: Job, build: Build, node: Node, lib: Library,
                           launch: LaunchOutcome)
    requires Perform(regs, job, build, node, lib, launch).Success?
    requires StepResult(Perform(regs, job, build, node, lib, launch).value)
    ensures GetMystInstallation(regs, job.installationName).Success?
    ensures var sri := Specialise(GetMystInstallation(regs, job.installationName).value, build, lib);
            var exe := Candidate(sri.home, node);
            var name := ExecutableName(node.isWindows);
            var cmd := Perform(regs, job, build, node, lib, launch).value.command;
            && node.files(exe).Present?
            && |name| <= |exe| && exe[|exe| - |name|..] == name
            && |exe| < |cmd| && cmd[..|exe| + 1] == exe + " "
    ensures launch == Exit(0)
  {
  }

  /** The environment of a build whose only environment contributor is the step's
      first parameter: used by the scenario below. */
  function FirstParamEnv(ps: seq<Param>): Env {
    if |ps| > 0 && ps[0].value.Some? then map[ps[0].name := ps[0].value.value] else map[]
  }

  /** One installation "default" at /opt/myst, no name requested, an executable
      /opt/myst/myst on a Unix node: the step runs "/opt/myst/myst apply app.env" in
      the build workspace, with `MYST_HOME` in the re-read environment, and succeeds
      when the process exits with 0. */
  lemma DefaultInstallationScenario()
    ensures
      var inst := NewInstallation(Some("default"), Some("/opt/myst"), []);
      var job := Job(Some("apply"), Some("app.env"), None, None, None);
      var node := Node(false, q => if q == "/opt/myst/myst" then Present(true, true) else Missing, h => h);
      var lib := Library((e: Env, v: Env) => e + v, (e: Env, h: Option<string>) => h, (i: Installation) => i.home);
      var r := Perform([inst], job, Build(map[], map[], FirstParamEnv), node, lib, Exit(0));
      && r == Success(Started("/opt/myst/myst apply app.env", [MystHome(Some("/opt/myst"))], BuildWorkspace,
                              map["MYST_HOME" := "/opt/myst"], Exit(0)))
      && StepResult(r.value)
  {
    var home := "/opt/myst";
    var inst := NewInstallation(Some("default"), Some(home), []);
    var job := Job(Some("apply"), Some("app.env"), None, None, None);
    var node := Node(false, q => if q == "/opt/myst/myst" then Present(true, true) else Missing, h => h);
    var lib := Library((e: Env, v: Env) => e + v, (e: Env, h: Option<string>) => h, (i: Installation) => i.home);
    var build := Build(map[], map[], FirstParamEnv);
    ScenarioStrings();
    assert inst == Installation(Some("default"), Some(home), []);
    assert GetMystInstallation([inst], None) == Success(inst);
    assert Specialise(inst, build, lib) == inst;
    var exe := Candidate(inst.home, node);
    assert exe == "/opt/myst/myst";
    assert GetExecutable(inst.home, node).resolution == Found(exe);
    assert FirstParamEnv([MystHome(Some(home))]) == map["MYST_HOME" := home];
    var report := Decide(Some(exe), inst, job, FirstParamEnv, Exit(0));
    assert report == Started("/opt/myst/myst apply app.env", [MystHome(Some(home))], BuildWorkspace,
                             map["MYST_HOME" := home], Exit(0));
    assert PerformWith(inst, job, build, node, lib, Exit(0)) == Success(report);
  }

  /** The string facts the scenario rests on: its names are already trimmed, and
      the command line comes out as written. */
  lemma ScenarioStrings()
    ensures Trim("default") == "default" && Trim("/opt/myst") == "/opt/myst"
    ensures ChildPath(Some("/opt/myst"), "myst", '/') == "/opt/myst/myst"
    ensures AssembleCommand("/opt/myst/myst", Some("apply"), Some("app.env"), None) == "/opt/myst/myst apply app.env"
  {
    assert IsTrimmed("default") && IsTrimmed("/opt/myst");
  }
}

=== FILE: builder_descriptor.dfy ===
/** The builder's descriptor: the global dashboard settings, the link to the
    dashboard a project shows, and the validation of the name field. */
module BuilderDescriptor {
  import opened Wrappers
  import opened JavaStrings

  /** The global configuration of the builder. The URL may be null. */
  datatype GlobalConfig = GlobalConfig(useConsoleIntegration: bool, consoleUrl: Option<string>)

  /** The exception `getProjectAction` can raise: the job's config is null. */
  datatype LinkFault = NullConfig

  /** The fixed text between the dashboard URL and the config path. */
  const DashboardPath := "/index.jsp?env=/conf/"

  /** The config name as a dashboard path: every `.` becomes `/`. */
  function ConfigPath(config: string): (p: string)
    ensures |p| == |config|
    ensures '.' !in p
    ensures forall i | 0 <= i < |config| && config[i] != '.' :: p[i] == config[i]
    ensures forall i | 0 <= i < |config| && config[i] == '.' :: p[i] == '/'
  {
    ReplaceChar(config, '.', '/')
  }

  /** The URL of the project's dashboard link (`getProjectAction`): none when
      integration is off, otherwise the console URL, the fixed path and the config
      name with dots as slashes. */
  function DashboardUrl(cfg: GlobalConfig, config: Option<string>): (r: Result<Option<string>, LinkFault>)
    ensures !cfg.useConsoleIntegration <==> r == Success(None)
    ensures r.Failure? <==> cfg.useConsoleIntegration && config.None?
    ensures r.Success? && r.value.Some? ==>
              var prefix := Show(cfg.consoleUrl) + DashboardPath;
              var url := r.value.value;
              && |url| == |prefix| + |config.value|
              && url[..|prefix|] == prefix
              && url[|prefix|..] == ConfigPath(config.value)
  {
    if cfg.useConsoleIntegration then
      match config
      case None => Failure(NullConfig)
      case Some(c) =>
        var prefix := Show(cfg.consoleUrl) + DashboardPath;
        var url := prefix + ConfigPath(c);
        assert url[..|prefix|] == prefix;
        Success(Some(url))
    else
      Success(None)
  }

  /** A config name without `/` can be read back off its link. */
  lemma ConfigRecoverableFromUrl(cfg: GlobalConfig, config: string)
    requires cfg.useConsoleIntegration
    requires '/' !in config
    ensures DashboardUrl(cfg, Some(config)).Success?
    ensures DashboardUrl(cfg, Some(config)).value.Some?
    ensures var url := DashboardUrl(cfg, Some(config)).value.value;
            var prefix := Show(cfg.consoleUrl) + DashboardPath;
            ReplaceChar(url[|prefix|..], '/', '.') == config
  {
  }

  /** Outcome of a form check, as shown next to the field. */
  datatype FormValidation = Error(message: string) | Warning(message: string) | Ok

  /** How severe a validation outcome is. */
  function Severity(v: FormValidation): nat {
    match v
    case Error(_) => 2
    case Warning(_) => 1
    case Ok => 0
  }

  /** `doCheckName`: an empty value is an error, one of fewer than four characters
      a warning, anything longer fine. */
  function CheckName(value: string): (v: FormValidation)
    ensures v.Error? <==> |value| == 0
    ensures v.Warning? <==> 1 <= |value| <= 3
    ensures v.Ok? <==> |value| >= 4
  {
    if |value| == 0 then Error("Field must be set")
    else if |value| < 4 then Warning("Field lengh is too short")
    else Ok
  }

  /** A longer value never gets a more severe verdict. */
  lemma CheckNameMonotone(a: string, b: string)
    requires |a| <= |b|
    ensures Severity(CheckName(b)) <= Severity(CheckName(a))
  {
  }
}

=== FILE: executable.dfy ===
/** The executable lookup that `MystInstallation.getExecutable` runs on the build's
    node: expand the home, pick the platform's file name, and check (and if needed
    set) the execute permission. The node's platform and file system are inputs. */
module ExecutableResolution {
  import opened Wrappers

  /** What the node's file system says about one path. */
  datatype FileStatus =
    | Missing
    | Present(canExecute: bool, chmodSucceeds: bool)

  /** The node the callable runs on: its platform, its files, and `Util.replaceMacro`
      with that JVM's own environment. */
  datatype Node = Node(
    isWindows: bool,
    files: string -> FileStatus,
    replaceMacro: Option<string> -> Option<string>)

  /** One file-system call made by the lookup. */
  datatype FileOp = Exists(path: string) | CanExecute(path: string) | SetExecutable(path: string)

  /** The callable's outcome: a path, `null`, or the `AbortException` thrown when
      the permission cannot be changed. */
  datatype Resolution = Found(path: string) | NotFound | PermissionDenied(path: string)

  /** The outcome, the calls made, in order, and the file system afterwards. */
  datatype Probe = Probe(resolution: Resolution, ops: seq<FileOp>, after: string -> FileStatus)

  /** `determineMystExecutor`, evaluated on the node. */
  function ExecutableName(isWindows: bool): (r: string)
    ensures isWindows <==> r == "myst.cmd"
    ensures !isWindows <==> r == "myst"
  {
    if isWindows then "myst.cmd" else "myst"
  }

  /** The name separator of the node's platform. */
  function Separator(isWindows: bool): char {
    if isWindows then '\\' else '/'
  }

  /** The path of `new File(parent, child)`: the child alone for a null parent, the
      child under the root for an empty one, otherwise the parent and the child
      joined by one separator. */
  function ChildPath(parent: Option<string>, child: string, sep: char): (r: string)
    ensures |child| <= |r| && r[|r| - |child|..] == child
    ensures parent.None? ==> r == child
    ensures parent.Some? ==> |r| > |child| && r[|r| - |child| - 1] == sep
    ensures parent.Some? ==> |parent.value| <= |r| && r[..|parent.value|] == parent.value
    // Nothing else: one separator is added unless the parent already ends with one.
    ensures parent.Some? && (parent.value == [] || parent.value[|parent.value| - 1] != sep) ==>
              |r| == |parent.value| + 1 + |child|
    ensures parent.Some? && parent.value != [] && parent.value[|parent.value| - 1] == sep ==>
              |r| == |parent.value| + |child|
  {
    match parent
    case None => child
    case Some(p) =>
      if p == [] then [sep] + child
      else if p[|p| - 1] == sep then p + child
      else p + [sep] + child
  }

  /** The file the lookup inspects for an installation home on a node. */
  function Candidate(home: Option<string>, node: Node): (c: string)
    ensures var name := ExecutableName(node.isWindows);
            |name| <= |c| && c[|c| - |name|..] == name
    ensures node.replaceMacro(home).None? ==> c == ExecutableName(node.isWindows)
    ensures node.replaceMacro(home).Some? ==>
              var dir := node.replaceMacro(home).value;
              var name := ExecutableName(node.isWindows);
              && |dir| < |c| && c[..|dir|] == dir
              && |name| < |c| && c[|c| - |name| - 1] == Separator(node.isWindows)
              && |c| == |dir| + |name| + (if dir != [] && dir[|dir| - 1] == Separator(node.isWindows) then 0 else 1)
  {
    ChildPath(node.replaceMacro(home), ExecutableName(node.isWindows), Separator(node.isWindows))
  }

  /** The file system after a successful `setExecutable(true)` on `path`, taken to
      make the file executable (a `noexec` mount would not). */
  function MarkExecutable(files: string -> FileStatus, path: string): (after: string -> FileStatus)
    requires files(path).Present?
    ensures after(path) == Present(true, files(path).chmodSucceeds)
    ensures forall q | q != path :: after(q) == files(q)
  {
    q => if q == path then Present(true, files(path).chmodSucceeds) else files(q)
  }

  /** The file-system calls of the callable on the path `exe`. */
  function Inspect(exe: string, isWindows: bool, files: string -> FileStatus): (p: Probe)
    ensures |p.ops| >= 1 && p.ops[0] == Exists(exe)
    ensures p.resolution.NotFound? <==> files(exe).Missing?
    ensures p.resolution.NotFound? ==> |p.ops| == 1
    ensures isWindows ==> p.ops == [Exists(exe)]
    ensures !isWindows && files(exe).Present? ==> |p.ops| >= 2 && p.ops[1] == CanExecute(exe)
    ensures SetExecutable(exe) in p.ops <==> !isWindows && files(exe).Present? && !files(exe).canExecute
    ensures |p.ops| <= 3
    ensures p.resolution.PermissionDenied? <==> !isWindows && files(exe) == Present(false, false)
    ensures p.resolution.PermissionDenied? ==> p.resolution.path == exe
    ensures p.resolution.Found? ==> p.resolution.path == exe
    ensures p.resolution.Found? ==> p.after(exe).Present?
    ensures p.resolution.Found? && !isWindows ==> p.after(exe).canExecute
    ensures forall q | q != exe :: p.after(q) == files(q)
    ensures !p.resolution.Found? ==> p.after(exe) == files(exe)
    ensures SetExecutable(exe) !in p.ops ==> forall q :: p.after(q) == files(q)
  {
    match files(exe)
    case Missing => Probe(NotFound, [Exists(exe)], files)
    case Present(canExecute, chmodSucceeds) =>
      if isWindows then
        Probe(Found(exe), [Exists(exe)], files)
      else if canExecute then
        Probe(Found(exe), [Exists(exe), CanExecute(exe)], files)
      else if !chmodSucceeds then
        Probe(PermissionDenied(exe), [Exists(exe), CanExecute(exe), SetExecutable(exe)], files)
      else
        Probe(Found(exe), [Exists(exe), CanExecute(exe), SetExecutable(exe)], MarkExecutable(files, exe))
  }

  /** The body of the callable in `getExecutable`. */
  function GetExecutable(home: Option<string>, node: Node): (p: Probe)
    ensures |p.ops| >= 1 && p.ops[0] == Exists(Candidate(home, node))
    // A missing file gives null after the existence test alone.
    ensures p.resolution.NotFound? <==> node.files(Candidate(home, node)).Missing?
    ensures p.resolution.NotFound? ==> |p.ops| == 1
    // On Windows nothing but existence is looked at.
    ensures node.isWindows ==> p.ops == [Exists(Candidate(home, node))]
    // Elsewhere the permission is read, and changed only when it is missing.
    ensures !node.isWindows && node.files(Candidate(home, node)).Present? ==>
              |p.ops| >= 2 && p.ops[1] == CanExecute(Candidate(home, node))
    ensures SetExecutable(Candidate(home, node)) in p.ops <==>
              !node.isWindows && node.files(Candidate(home, node)).Present? &&
                !node.files(Candidate(home, node)).canExecute
    ensures |p.ops| <= 3
    ensures p.resolution.PermissionDenied? <==>
              !node.isWindows && node.files(Candidate(home, node)) == Present(false, false)
    ensures p.resolution.PermissionDenied? ==> p.resolution.path == Candidate(home, node)
    // A found path is the candidate, and off Windows it is executable afterwards.
    ensures p.resolution.Found? ==> p.resolution.path == Candidate(home, node)
    ensures p.resolution.Found? ==> p.after(Candidate(home, node)).Present?
    ensures p.resolution.Found? && !node.isWindows ==> p.after(Candidate(home, node)).canExecute
    // No other file changes, and a failed lookup changes nothing.
    ensures forall q | q != Candidate(home, node) :: p.after(q) == node.files(q)
    ensures !p.resolution.Found? ==> p.after(Candidate(home, node)) == node.files(Candidate(home, node))
    // Without a `setExecutable` call the file system is left exactly as it was.
    ensures SetExecutable(Candidate(home, node)) !in p.ops ==> forall q :: p.after(q) == node.files(q)
  {
    Inspect(Candidate(home, node), node.isWindows, node.files)
  }

  /** A second lookup on the file system a successful one left behind finds the same
      path and changes no permission. */
  lemma GetExecutableIdempotent(home: Option<string>, node: Node)
    requires GetExecutable(home, node).resolution.Found?
    ensures GetExecutable(home, node.(files := GetExecutable(home, node).after)).resolution
            == GetExecutable(home, node).resolution
    ensures forall op | op in GetExecutable(home, node.(files := GetExecutable(home, node).after)).ops :: !op.SetExecutable?
  {
    var exe := Candidate(home, node);
    var node' := node.(files := GetExecutable(home, node).after);
    assert Candidate(home, node') == exe;
    assert node'.files(exe).Present? && (node.isWindows || node'.files(exe).canExecute);
    ReadyExecutableUntouched(home, node');
  }

  /** A candidate that exists and needs no permission change is found as is. */
  lemma ReadyExecutableUntouched(home: Option<string>, node: Node)
    requires node.files(Candidate(home, node)).Present?
    requires node.isWindows || node.files(Candidate(home, node)).canExecute
    ensures GetExecutable(home, node).resolution == Found(Candidate(home, node))
    ensures forall op | op in GetExecutable(home, node).ops :: !op.SetExecutable?
  {
  }

  /** The found path names the platform's agent file. */
  lemma FoundPathNamesAgent(home: Option<string>, node: Node)
    requires GetExecutable(home, node).resolution.Found?
    ensures var path := GetExecutable(home, node).resolution.path;
            var name := ExecutableName(node.isWindows);
            |name| <= |path| && path[|path| - |name|..] == name
  {
  }
}

=== FILE: installations.dfy ===
/** MystInstallation: the record an administrator configures for one MyST agent,
    its constructor normalisation, its two specialisations and the descriptor
    that holds the configured array. */
module Installations {
  import opened Wrappers
  import opened JavaStrings

  /** An environment (`EnvVars`): variable name to value. */
  type Env = map<string, string>

  /** A tool property attached to an installation; the plugin never looks inside one. */
  datatype ToolProperty = ToolProperty(descriptor: string)

  /** A MyST agent installation. Name and home may be null. */
  datatype Installation = Installation(name: Option<string>, home: Option<string>, properties: seq<ToolProperty>)

  /** What the constructor leaves in the name or home field: null, or a non-empty
      trimmed string. */
  predicate IsNormalField(f: Option<string>) {
    f.None? || (f.value != [] && IsTrimmed(f.value))
  }

  /** Every record built by the constructor is normal. */
  predicate IsNormal(inst: Installation) {
    IsNormalField(inst.name) && IsNormalField(inst.home)
  }

  /** The data-bound constructor: name and home are trimmed, and blank or null
      values both become null; the properties are kept as given. */
  function NewInstallation(name: Option<string>, home: Option<string>, properties: seq<ToolProperty>): (r: Installation)
    ensures IsNormal(r)
    ensures r.properties == properties
    ensures r.name.None? <==> name.None? || IsBlank(name.value)
    ensures r.home.None? <==> home.None? || IsBlank(home.value)
    ensures r.name.Some? ==> r.name.value == Trim(name.value)
    ensures r.home.Some? ==> r.home.value == Trim(home.value)
  {
    Installation(FixEmptyAndTrim(name), FixEmptyAndTrim(home), properties)
  }

  /** Constructing again from a normal record's own fields gives the same record. */
  lemma NewInstallationFixesNormal(inst: Installation)
    requires IsNormal(inst)
    ensures NewInstallation(inst.name, inst.home, inst.properties) == inst
  {
  }

  /** `forEnvironment`: a new record whose home is the original home with the
      environment's variables expanded (`EnvVars.expand`, a parameter here). */
  function ForEnvironment(inst: Installation, env: Env, expand: (Env, Option<string>) -> Option<string>): (r: Installation)
    ensures IsNormal(r)
    ensures r.properties == inst.properties
    ensures IsNormalField(inst.name) ==> r.name == inst.name
    ensures r.home == FixEmptyAndTrim(expand(env, inst.home))
  {
    NewInstallation(inst.name, expand(env, inst.home), inst.properties)
  }

  /** `forNode`: a new record whose home is the one `translateFor` gives for the
      executing node (a parameter here; it may consult the whole record). */
  function ForNode(inst: Installation, translateFor: Installation -> Option<string>): (r: Installation)
    ensures IsNormal(r)
    ensures r.properties == inst.properties
    ensures IsNormalField(inst.name) ==> r.name == inst.name
    ensures r.home == FixEmptyAndTrim(translateFor(inst))
  {
    NewInstallation(inst.name, translateFor(inst), inst.properties)
  }

  /** Specialising a constructed record for a node and then for an environment
      keeps its name and properties; only the home changes. */
  lemma SpecialisationKeepsIdentity(inst: Installation, translateFor: Installation -> Option<string>,
                                    env: Env, expand: (Env, Option<string>) -> Option<string>)
    requires IsNormal(inst)
    ensures ForEnvironment(ForNode(inst, translateFor), env, expand).name == inst.name
    ensures ForEnvironment(ForNode(inst, translateFor), env, expand).properties == inst.properties
  {
  }

  /** An expansion that leaves the home as it is gives back the same record. */
  lemma ForEnvironmentNoOp(inst: Installation, env: Env, expand: (Env, Option<string>) -> Option<string>)
    requires IsNormal(inst)
    requires expand(env, inst.home) == inst.home
    ensures ForEnvironment(inst, env, expand) == inst
  {
  }

  /** The installation descriptor: the array of installations last saved. */
  datatype Descriptor = Descriptor(installations: seq<Installation>)

  /** `getInstallations`. */
  function GetInstallations(d: Descriptor): (xs: seq<Installation>)
    ensures d == Descriptor(xs)
  {
    d.installations
  }

  /** `setInstallations`: the whole array is replaced. */
  function SetInstallations(d: Descriptor, xs: seq<Installation>): (e: Descriptor)
    ensures GetInstallations(e) == xs
  {
    Descriptor(xs)
  }

  /** Reading after a replacement gives exactly the array written, whatever was
      there before, and the earlier content leaves no trace; writing back what was
      read changes nothing. */
  lemma ReplaceThenRead(d: Descriptor, e: Descriptor, xs: seq<Installation>, ys: seq<Installation>)
    ensures GetInstallations(SetInstallations(d, xs)) == xs
    ensures SetInstallations(d, xs) == SetInstallations(e, xs)
    ensures SetInstallations(SetInstallations(d, ys), xs) == SetInstallations(d, xs)
    ensures SetInstallations(d, GetInstallations(d)) == d
  {
  }
}

=== FILE: java_strings.dfy ===
/** The handful of java.lang.String and hudson.Util operations the plugin relies on,
    defined once and characterised by their contracts. */
module JavaStrings {
  import opened Wrappers

  /** `String.trim` removes every character whose code is at most U+0020. */
  predicate IsTrimmable(c: char) {
    c <= ' '
  }

  /** The meaning of `s.trim().length() == 0`: nothing but trimmable characters. */
  predicate IsBlank(s: string) {
    forall i | 0 <= i < |s| :: IsTrimmable(s[i])
  }

  /** A trimmed string neither starts nor ends with a trimmable character. */
  predicate IsTrimmed(s: string) {
    s == [] || (!IsTrimmable(s[0]) && !IsTrimmable(s[|s| - 1]))
  }

  /** The scan from the front in `String.trim`: the first index at or after `i`
      whose character is kept, or `|s|`. */
  function FirstKept(s: string, i: nat): (k: nat)
    requires i <= |s|
    ensures i <= k <= |s|
    ensures k < |s| ==> !IsTrimmable(s[k])
    ensures forall j | i <= j < k :: IsTrimmable(s[j])
    decreases |s| - i
  {
    if i < |s| && IsTrimmable(s[i]) then FirstKept(s, i + 1) else i
  }

  /** The scan from the back in `String.trim`: moving `end` down from `j` while the
      character before it is trimmable, never below `lo`. */
  function KeptEnd(s: string, lo: nat, j: nat): (k: nat)
    requires lo <= j <= |s|
    ensures lo <= k <= j
    ensures k > lo ==> !IsTrimmable(s[k - 1])
    ensures forall m | k <= m < j :: IsTrimmable(s[m])
    decreases j - lo
  {
    if j > lo && IsTrimmable(s[j - 1]) then KeptEnd(s, lo, j - 1) else j
  }

  /** Number of trimmable characters in front of the trimmed part. */
  function LeadingBlanks(s: string): (n: nat)
    ensures n <= |s|
  {
    FirstKept(s, 0)
  }

  /** `String.trim`: the infix of `s` left once blanks are cut from both ends. */
  function Trim(s: string): (r: string)
    ensures IsTrimmed(r)
    ensures LeadingBlanks(s) + |r| <= |s|
    ensures r == s[LeadingBlanks(s)..LeadingBlanks(s) + |r|]
    ensures forall j | 0 <= j < LeadingBlanks(s) :: IsTrimmable(s[j])
    ensures forall j | LeadingBlanks(s) + |r| <= j < |s| :: IsTrimmable(s[j])
    ensures |r| == 0 <==> IsBlank(s)
    ensures IsTrimmed(s) ==> r == s
  {
    var lo := FirstKept(s, 0);
    var hi := KeptEnd(s, lo, |s|);
    assert IsTrimmed(s) && s != [] ==> lo == 0 && hi == |s|;
    s[lo..hi]
  }

  /** Trimming twice is trimming once. */
  lemma TrimIdempotent(s: string)
    ensures Trim(Trim(s)) == Trim(s)
  {
  }

  /** Jenkins' `Util.fixEmptyAndTrim`: null stays null, anything else is trimmed and
      an empty result becomes null. */
  function FixEmptyAndTrim(s: Option<string>): (r: Option<string>)
    ensures r.None? <==> s.None? || IsBlank(s.value)
    ensures r.Some? ==> r.value != [] && IsTrimmed(r.value) && r.value == Trim(s.value)
    ensures s.Some? && s.value != [] && IsTrimmed(s.value) ==> r == s
  {
    match s
    case None => None
    case Some(v) =>
      var t := Trim(v);
      if |t| == 0 then None else Some(t)
  }

  /** How string concatenation renders a reference that may be null. */
  function Show(s: Option<string>): (r: string)
    ensures s.Some? ==> r == s.value
    // A null reference and the string "null" render alike.
    ensures r == "null" <==> s.None? || s == Some("null")
  {
    match s
    case None => "null"
    case Some(v) => v
  }

  /** `Character.toUpperCase`, restricted to ASCII letters. */
  function UpperAscii(c: char): char {
    if 'a' <= c <= 'z' then (c as int - 32) as char else c
  }

  /** `Character.toLowerCase`, restricted to ASCII letters. */
  function LowerAscii(c: char): char {
    if 'A' <= c <= 'Z' then (c as int + 32) as char else c
  }

  /** The per-character test of `String.equalsIgnoreCase`: equal, equal once upper-cased,
      or equal once upper-cased and then lower-cased. */
  predicate CharEqualsIgnoreCase(a: char, b: char) {
    || a == b
    || UpperAscii(a) == UpperAscii(b)
    || LowerAscii(UpperAscii(a)) == LowerAscii(UpperAscii(b))
  }

  /** `String.equalsIgnoreCase` on two non-null strings. */
  predicate EqualsIgnoreCase(a: string, b: string): (eq: bool)
    ensures eq <==> |a| == |b| && forall i | 0 <= i < |a| :: UpperAscii(a[i]) == UpperAscii(b[i])
  {
    |a| == |b| && forall i | 0 <= i < |a| :: CharEqualsIgnoreCase(a[i], b[i])
  }

  /** The upper-case image of a string, one character at a time. */
  function UpperCase(s: string): (r: string)
    ensures |r| == |s|
  {
    seq(|s|, i requires 0 <= i < |s| => UpperAscii(s[i]))
  }

  /** For the ASCII fold, the three-way character test collapses to equality of
      upper-case images, because ASCII lower-casing is injective on upper-case
      images. Over full Unicode it is not, which is why Java makes the third test. */
  lemma CharEqualsIgnoreCaseIsUpperEquality(a: char, b: char)
    ensures CharEqualsIgnoreCase(a, b) <==> UpperAscii(a) == UpperAscii(b)
  {
  }

  /** With the ASCII fold, `equalsIgnoreCase` holds exactly when the upper-case
      images are equal. */
  lemma {:induction false} EqualsIgnoreCaseIsUpperCaseEquality(a: string, b: string)
    ensures EqualsIgnoreCase(a, b) <==> UpperCase(a) == UpperCase(b)
  {
    if |a| == |b| {
      forall i | 0 <= i < |a|
        ensures CharEqualsIgnoreCase(a[i], b[i]) <==> UpperCase(a)[i] == UpperCase(b)[i]
      {
        CharEqualsIgnoreCaseIsUpperEquality(a[i], b[i]);
      }
      if UpperCase(a) != UpperCase(b) {
        var k :| 0 <= k < |a| && UpperCase(a)[k] != UpperCase(b)[k];
        assert !CharEqualsIgnoreCase(a[k], b[k]);
      }
    }
  }

  /** `equalsIgnoreCase` is an equivalence relation. */
  lemma EqualsIgnoreCaseIsEquivalence(a: string, b: string, c: string)
    ensures EqualsIgnoreCase(a, a)
    ensures EqualsIgnoreCase(a, b) ==> EqualsIgnoreCase(b, a)
    ensures EqualsIgnoreCase(a, b) && EqualsIgnoreCase(b, c) ==> EqualsIgnoreCase(a, c)
  {
  }

  /** `String.replace` of one single-character literal by another. */
  function ReplaceChar(s: string, from: char, to: char): (r: string)
    ensures |r| == |s|
    ensures forall i | 0 <= i < |s| && s[i] != from :: r[i] == s[i]
    ensures forall i | 0 <= i < |s| && s[i] == from :: r[i] == to
  {
    seq(|s|, i requires 0 <= i < |s| => if s[i] == from then to else s[i])
  }

  /** Replacing back undoes a replacement whose target character did not occur before. */
  lemma ReplaceCharRoundTrip(s: string, from: char, to: char)
    requires to !in s
    ensures ReplaceChar(ReplaceChar(s, from, to), to, from) == s
  {
  }
}

=== FILE: lookup.dfy ===
/** MystBuilder.getMystInstallation: choosing the job's installation from the
    configured array. */
module InstallationLookup {
  import opened Wrappers
  import opened JavaStrings
  import opened Installations

  /** Why the build step stops before any process is launched. `UnnamedInstallation`
      is the NullPointerException raised when a record without a name is compared;
      the others are `AbortException`s. */
  datatype Abort =
    | NoInstallations
    | NameNotDefined(requested: string)
    | UnnamedInstallation(index: nat)
    | PermissionRefused(path: string)

  /** The fixed part of the message of a refused permission change. */
  const PermissionRefusedPrefix := "Couldnt change the permission for myst: "

  /** The message an `AbortException` carries (a NullPointerException has none). */
  function AbortMessage(a: Abort): (m: Option<string>)
    ensures m.None? <==> a.UnnamedInstallation?
    ensures a.PermissionRefused? ==>
              |a.path| < |m.value| && m.value[|m.value| - |a.path|..] == a.path
    ensures a.NameNotDefined? ==> |a.requested| < |m.value|
  {
    match a
    case NoInstallations => Some("There is no MyST Agent installation defined in the MyST Global Configuration")
    case NameNotDefined(n) =>
      Some("The MyST Installation name defined in this job (" + n + ") is not defined in the MyST Global Configuration")
    case UnnamedInstallation(_) => None
    case PermissionRefused(p) =>
      var m := PermissionRefusedPrefix + p;
      assert m[|PermissionRefusedPrefix|..] == p;
      Some(m)
  }

  /** The not-defined message quotes the requested name exactly as the job gave it. */
  lemma NotDefinedMessageQuotesRequest(requested: string)
    ensures AbortMessage(NameNotDefined(requested)).Some?
    ensures var m := AbortMessage(NameNotDefined(requested)).value;
            var k := |"The MyST Installation name defined in this job ("|;
            k + |requested| <= |m| && m[k..k + |requested|] == requested
  {
  }

  /** The comparison made for one record: trimmed names equal ignoring case. */
  predicate NameMatches(requested: string, name: string) {
    EqualsIgnoreCase(Trim(requested), Trim(name))
  }

  /** A record the loop looks at and moves past: named, but not the one requested. */
  predicate PassedOver(requested: string, inst: Installation) {
    inst.name.Some? && !NameMatches(requested, inst.name.value)
  }

  /** Index `i` holds the first record, in array order, whose name matches. */
  predicate FirstMatchAt(regs: seq<Installation>, requested: string, i: nat) {
    && i < |regs|
    && regs[i].name.Some?
    && NameMatches(requested, regs[i].name.value)
    && forall j | 0 <= j < i :: PassedOver(requested, regs[j])
  }

  /** Index `i` holds the first record without a name, reached before any match. */
  predicate FirstUnnamedAt(regs: seq<Installation>, requested: string, i: nat) {
    && i < |regs|
    && regs[i].name.None?
    && forall j | 0 <= j < i :: PassedOver(requested, regs[j])
  }

  /** Every record is named and none matches. */
  predicate NoneMatches(regs: seq<Installation>, requested: string) {
    forall j | 0 <= j < |regs| :: PassedOver(requested, regs[j])
  }

  /** Where the loop over the array stops. */
  datatype Stop = Hit(index: nat) | Unnamed(index: nat) | Exhausted

  /** The `for` loop of `getMystInstallation`, from position `from` on. */
  function Scan(regs: seq<Installation>, requested: string, from: nat): (r: Stop)
    requires from <= |regs|
    requires forall j | 0 <= j < from :: PassedOver(requested, regs[j])
    ensures r.Hit? ==> from <= r.index && FirstMatchAt(regs, requested, r.index)
    ensures r.Unnamed? ==> from <= r.index && FirstUnnamedAt(regs, requested, r.index)
    ensures r.Exhausted? ==> NoneMatches(regs, requested)
    decreases |regs| - from
  {
    if from == |regs| then Exhausted
    else match regs[from].name
      case None => Unnamed(from)
      case Some(n) =>
        if EqualsIgnoreCase(Trim(requested), Trim(n)) then Hit(from)
        else Scan(regs, requested, from + 1)
  }

  /** A request that selects the default installation: null or blank. */
  predicate IsDefaultRequest(requested: Option<string>) {
    requested.None? || IsBlank(requested.value)
  }

  /** `getMystInstallation`: abort on an empty array; the first installation for a
      null or blank name; otherwise the first record whose name matches. */
  function GetMystInstallation(regs: seq<Installation>, requested: Option<string>): (r: Result<Installation, Abort>)
    ensures |regs| == 0 <==> r == Failure(NoInstallations)
    ensures |regs| > 0 && IsDefaultRequest(requested) ==> r == Success(regs[0])
    ensures r.Success? && !IsDefaultRequest(requested) ==>
              exists i: nat :: FirstMatchAt(regs, requested.value, i) && r.value == regs[i]
    ensures r.Failure? && r.error.NameNotDefined? ==>
              requested == Some(r.error.requested) && NoneMatches(regs, r.error.requested)
    ensures r.Failure? && r.error.UnnamedInstallation? ==>
              !IsDefaultRequest(requested) && FirstUnnamedAt(regs, requested.value, r.error.index)
    ensures !r.Failure? || r.error.NoInstallations? || r.error.NameNotDefined? || r.error.UnnamedInstallation?
  {
    if |regs| == 0 then
      Failure(NoInstallations)
    else if requested.None? || |Trim(requested.value)| == 0 then
      Success(regs[0])
    else
      match Scan(regs, requested.value, 0)
      case Hit(i) => Success(regs[i])
      case Unnamed(i) => Failure(UnnamedInstallation(i))
      case Exhausted => Failure(NameNotDefined(requested.value))
  }

  /** The first matching record is the one chosen. */
  lemma LookupFindsFirstMatch(regs: seq<Installation>, requested: string, i: nat)
    requires !IsBlank(requested)
    requires FirstMatchAt(regs, requested, i)
    ensures GetMystInstallation(regs, Some(requested)) == Success(regs[i])
  {
  }

  /** A record without a name reached before any match crashes the lookup. */
  lemma LookupCrashesOnUnnamed(regs: seq<Installation>, requested: string, i: nat)
    requires !IsBlank(requested)
    requires FirstUnnamedAt(regs, requested, i)
    ensures GetMystInstallation(regs, Some(requested)) == Failure(UnnamedInstallation(i))
  {
  }

  /** No match among named records aborts with the request as given. */
  lemma LookupAbortsWhenNoneMatches(regs: seq<Installation>, requested: string)
    requires |regs| > 0 && !IsBlank(requested)
    requires NoneMatches(regs, requested)
    ensures GetMystInstallation(regs, Some(requested)) == Failure(NameNotDefined(requested))
  {
  }

  /** Requests equal once trimmed and case-folded match the same records. */
  lemma SameMatches(a: string, b: string, name: string)
    requires EqualsIgnoreCase(Trim(a), Trim(b))
    ensures NameMatches(a, name) <==> NameMatches(b, name)
  {
  }

  /** The scan stops at the same place for two such requests. */
  lemma {:induction false} ScanIgnoresCaseAndPadding(regs: seq<Installation>, a: string, b: string, from: nat)
    requires EqualsIgnoreCase(Trim(a), Trim(b))
    requires from <= |regs|
    requires forall j | 0 <= j < from :: PassedOver(a, regs[j])
    requires forall j | 0 <= j < from :: PassedOver(b, regs[j])
    ensures Scan(regs, a, from) == Scan(regs, b, from)
    decreases |regs| - from
  {
    if from < |regs| && regs[from].name.Some? {
      SameMatches(a, b, regs[from].name.value);
      if !NameMatches(a, regs[from].name.value) {
        ScanIgnoresCaseAndPadding(regs, a, b, from + 1);
      }
    }
  }

  /** Names are compared trimmed and ignoring case: two requests that differ only
      in those ways select the same record, or both fail the same way (the
      not-defined message quoting each request as given). */
  lemma LookupIgnoresCaseAndPadding(regs: seq<Installation>, a: string, b: string)
    requires EqualsIgnoreCase(Trim(a), Trim(b))
    ensures GetMystInstallation(regs, Some(a)).Success? <==> GetMystInstallation(regs, Some(b)).Success?
    ensures GetMystInstallation(regs, Some(a)).Success? ==>
              GetMystInstallation(regs, Some(a)) == GetMystInstallation(regs, Some(b))
    ensures GetMystInstallation(regs, Some(a)).Failure? ==>
              GetMystInstallation(regs, Some(b)).Failure? &&
              (GetMystInstallation(regs, Some(a)).error.NameNotDefined? <==>
               GetMystInstallation(regs, Some(b)).error.NameNotDefined?)
    // Any other failure, the null-pointer one included, is the very same abort.
    ensures GetMystInstallation(regs, Some(a)).Failure? && !GetMystInstallation(regs, Some(a)).error.NameNotDefined? ==>
              GetMystInstallation(regs, Some(a)) == GetMystInstallation(regs, Some(b))
  {
    assert |Trim(a)| == |Trim(b)|;
    if |regs| > 0 && !IsBlank(a) {
      ScanIgnoresCaseAndPadding(regs, a, b, 0);
    }
  }
}

=== FILE: wrappers.dfy ===
/** The null-or-value and value-or-error shapes the plugin's Java code encodes with
    null references and exceptions. */
module Wrappers {

  /** A Java reference that may be null. */
  datatype Option<+T> = None | Some(value: T)

  /** A call that either returns a value or ends with an exception. */
  datatype Result<+R, +E> = Success(value: R) | Failure(error: E)
}
